=== FILE: README.md ===
# fpm-monitor core, modelled in Dafny

fpm-monitor is a terminal dashboard for a PHP-FPM pool. Once a second it fetches the
pool's JSON status page and appends the decoded snapshot to a history capped at 60
samples. From that history it derives:

- throughput, the change in accepted connections between the two newest samples;
- average request latency over the Running workers of the newest sample;
- pool load;
- a days/hours/minutes/seconds uptime string.

It then writes these values into seven widgets: a process chart, two gauges, two
paragraphs, an info table and a help bar. The widgets are placed in a fixed 120x28
layout, which is recomputed from the terminal size on a resize.

This project models that logic as pure functions over immutable datatypes:

- `Monitor` (monitor.dfy): the `FPMStatus`/`Process` records, the bounded history, throughput and average latency.
- `Uptime` (uptime.dfy): `FormatUptime`, plus an independent parser `ParseUptime` used to state that the format loses nothing.
- `GoInt` (goint.dfy): Go's truncating `/` and `%`. Dafny's operators are Euclidean, so the uptime split and the layout arithmetic use these instead.
- `Decimal` (decimal.dfy): Go's `%d` rendering and its inverse.
- `LocaleTable` (locale_table.dfy): the static `en`/`ru` label table.
- `Builder` (builder.dfy): the widget builder, with every widget a plain record: rectangle, title, and content.
- `Layout` (layout.dfy): the fixed and the responsive layout, with a tiling predicate.
- `App` (app.dfy): start-up and one scheduler tick as a step function, `Tick(state, fetchResult)`.

Two behaviours of the code are worth stating up front:

- The first sample publishes a throughput of 0 (internal/monitor/monitor.go:80-82).
- The pool-load percent is truncated, not rounded (internal/ui/builder.go:161).

## Model

| member | source | states |
|---|---|---|
| Monitor.NewMonitor | internal/monitor/monitor.go:49-55 | a new monitor has an empty history, a bound of 60 and the given URL |
| Monitor.AddToHistory | internal/monitor/monitor.go:72-77 | the appended status is the newest entry; below the bound the history grows by it; at the bound the oldest entry (and only it) is evicted; the bound is preserved |
| Monitor.AddAllIsWindow | internal/monitor/monitor.go:72-77 | after any sequence of appends the history is exactly the last `maxHistory` samples in chronological order |
| Monitor.FreshHistoryIsWindow | internal/monitor/monitor.go:49-77 | from a new monitor the history holds the last min(n, 60) appended statuses in order |
| Monitor.RpsAfterAdd | internal/monitor/monitor.go:79-89 | after appending to a non-empty history, throughput is the new accepted count minus the previous newest one, unclamped |
| Monitor.CalculateRPS | internal/monitor/monitor.go:79-89 | 0 with fewer than two samples; otherwise the previous newest accepted count plus the result is the newest count, and the result is negative only when the counter went back |
| Monitor.RpsOfFirstSample | internal/monitor/monitor.go:80-82 | with a single sample, throughput is 0 |
| Monitor.SumRunning | internal/monitor/monitor.go:96-105 | the loop's total and count equal the summed durations and number of processes that are exactly "Running" with a positive duration |
| Monitor.AvgBounds | internal/monitor/monitor.go:91-111 | the average is positive iff some process qualifies, otherwise 0, and it lies between the smallest and largest qualifying duration, in ms |
| Monitor.GetAvgRequestDuration | internal/monitor/monitor.go:91-111 | never negative, and positive exactly when the history is non-empty and its newest sample has a process that is "Running" with a positive duration |
| Monitor.AvgAfterAdd | internal/monitor/monitor.go:91-96 | the average reads only the newest sample |
| Monitor.AvgExample | internal/monitor/monitor.go:100-108 | Running 2000 µs, Running 4000 µs and Idle average to 3.0 ms |
| GoInt.Quot | internal/monitor/monitor.go:114 | Go's integer `/` truncates toward zero, for both signs of the dividend |
| GoInt.Rem | internal/monitor/monitor.go:117 | Go's `%` satisfies a == (a/b)*b + a%b, and the remainder takes the dividend's sign |
| Uptime.FormatUptime | internal/monitor/monitor.go:113-126 | the text is the rendering, from the largest non-zero unit down to seconds, of the one split of the uptime into days, hours below 24, minutes below 60 and seconds below 60 |
| Uptime.DecomposeSpec | internal/monitor/monitor.go:113-117 | days*86400 + hours*3600 + minutes*60 + secs == seconds; for non-negative input hours < 24, minutes < 60, secs < 60 |
| Uptime.DecomposeUnique | internal/monitor/monitor.go:113-117 | the split is the only one with components in range |
| Uptime.UptimeRoundTrip | internal/monitor/monitor.go:119-126 | for a non-negative input, parsing the formatted uptime gives back the seconds |
| Uptime.FormatUptimeInjective | internal/monitor/monitor.go:119-126 | different non-negative uptimes format differently |
| Uptime.FormatUptimeLeadingUnit | internal/monitor/monitor.go:119-126 | the text starts with d from one day on, h from one hour, m from one minute, s below that |
| Uptime.FormatBelowMinute | internal/monitor/monitor.go:125-126 | below one minute only the seconds are printed |
| Uptime.FormatZero | internal/monitor/monitor.go:113-126 | 0 formats as "0s" |
| Uptime.FormatSeconds | internal/monitor/monitor.go:113-126 | 59 formats as "59s" |
| Uptime.FormatMinutes | internal/monitor/monitor.go:113-126 | 60 formats as "1m 0s" |
| Uptime.FormatHours | internal/monitor/monitor.go:113-126 | 3600 formats as "1h 0m 0s" |
| Uptime.FormatDays | internal/monitor/monitor.go:113-126 | 90061 formats as "1d 1h 1m 1s" |
| Uptime.FormatWholeHours | internal/monitor/monitor.go:113-126 | 90000 formats as "1d 1h 0m 0s" |
| Decimal.IntToStringRoundTrip | internal/ui/builder.go:188-192 | the `%d` rendering of any integer reads back as that integer |
| LocaleTable.LocaleKeys | internal/ui/locale.go:21-54 | the locale table has exactly the keys "en" and "ru", with different labels |
| Builder.NewWidgetBuilder | internal/ui/builder.go:24-33 | a known tag selects its locale; any other tag selects the "en" locale |
| Builder.CreateWidgets | internal/ui/builder.go:35-93 | the chart, gauges and paragraphs take their titles from the locale; the table is titled "Pool Info" in every language; the help bar shows the locale's exit hint; nothing else has content or a rectangle |
| Builder.UnknownLanguageIsEnglish | internal/ui/builder.go:24-33 | any tag other than "en"/"ru" yields exactly the English builder |
| Builder.RussianIsNotEnglish | internal/ui/builder.go:24-33 | "ru" does not fall back to English |
| Builder.InitializeEmptyData | internal/ui/builder.go:95-113 | six rows with the fixed label order all read "Loading..."; both gauges are at 0 with a "Loading..." label; both paragraphs read "Loading..."; rectangles, every title, the chart and the help bar are untouched |
| Builder.UpdateProcessChart | internal/ui/builder.go:144-157 | with more than one sample the chart holds two series as long as the history (active, then idle, index by index); otherwise it is unchanged |
| Builder.PoolLoadPercent | internal/ui/builder.go:161 | the load is the truncated percentage, within [0, 100] whenever 0 <= active <= total |
| Builder.PoolLoadExample | internal/ui/builder.go:161 | 3 active of 4 gives 75 |
| Builder.UpdatePoolGauge | internal/ui/builder.go:159-165 | a total of 0 or less leaves the gauge unchanged; otherwise percent and label show the load |
| Builder.UpdateRPSGauge | internal/ui/builder.go:167-175 | the percent is the throughput capped at 100, never above it and not floored; the label carries the uncapped value |
| Builder.UpdateInfoTable | internal/ui/builder.go:186-195 | six rows under the placeholder labels; the counters read back as the status's values; the uptime row is `FormatUptime(startSince)`; the last row is ("Pool", pool) |
| Builder.UpdateWidgets | internal/ui/builder.go:135-142 | a refresh changes no rectangle, no title and not the help bar |
| Builder.InfoLabelsStable | internal/ui/builder.go:186-195 | the refreshed table has the same label order as the placeholder table |
| Layout.SetLayout | internal/ui/builder.go:115-123 | the start-up rectangles are the seven-pane grid cut at columns 60 (chart, gauges), 30 and 60 (bottom panes) and rows 8 (pool gauge, throughput gauge), 15 (top row, bottom row) and 25 (help bar); they tile a 120x28 screen exactly, and nothing but rectangles changes |
| Layout.SetResponsiveLayout | internal/ui/builder.go:125-133 | the chart starts at the top-left corner; the cuts sit at width*3/5 (chart, gauges), height*2/5 (pool gauge, throughput gauge), height*3/5 (top row, bottom row), width/4 and width/2 (the three bottom panes) and height*4/5 (help bar), each truncated toward zero; panes share those edges and the help bar spans the full width to the bottom |
| Layout.ResponsiveLayoutTiles | internal/ui/builder.go:125-133 | for width, height >= 0 the seven rectangles are well formed, on screen, pairwise disjoint, and cover the screen |
| App.DefaultStart | cmd/fpm-monitor/main.go:14-15 | the defaults are the "en" locale and http://localhost/status |
| App.Start | cmd/fpm-monitor/main.go:23-27 | before any tick: an empty valid monitor, the builder for the language, the rectangles of the fixed 120x28 layout (cut at columns 60, 30, 60 and rows 8, 15, 25), the locale's titles with "Pool Info" on the table and the exit hint in the help bar, and placeholders (which are a fixed point of InitializeEmptyData) |
| App.Tick | cmd/fpm-monitor/main.go:34-44 | a failed fetch leaves the state unchanged; a successful one appends the status once and refreshes the widgets from the updated monitor and that status; rectangles and the history bound are kept |
| App.FailuresAreInvisible | cmd/fpm-monitor/main.go:35-39 | a run with failed fetches equals the run of its successful fetches alone |
| App.RunMonitor | cmd/fpm-monitor/main.go:34-44 | after a run the monitor has appended exactly the successful statuses, in order |
| App.HistoryAfterRun | cmd/fpm-monitor/main.go:34-44 | from start-up the history is the last 60 successfully fetched statuses in order |
| App.TickThroughput | cmd/fpm-monitor/main.go:41-42 | after a successful tick the throughput gauge shows the delta against the previous newest sample |
| App.ThroughputTrace | cmd/fpm-monitor/main.go:34-44 | ticks accepting 5, 12, 20, with failures in between, publish throughputs 0, 7, 8 |
| App.RunKeepsChart | cmd/fpm-monitor/main.go:34-44 | every tick, failed or not, keeps the chart's two series equal to the active and idle counts of the history once it holds two samples |
| App.ChartFollowsHistory | cmd/fpm-monitor/main.go:41-42 | after two or more successes the chart's two series are the active and the idle counts of the history window, sample by sample |

## Left out

- The HTTP fetch and JSON decoding (`FetchStatus`, internal/monitor/monitor.go:57-70) are outside the model. A tick receives the fetch outcome as a `FetchResult` value.
- The error line a failed fetch writes to the log (cmd/fpm-monitor/main.go:37) is not modelled. A failed tick leaves the state unchanged, and the `cause` carried by `FetchFailed` is never read.
- Terminal-library calls are outside the model: widget drawing, colours, `Render`, `Clear`, `PollEvents`, and the quit/resize event loop `HandleEvents` (internal/ui/builder.go:197-224). termui's normalisation of swapped rectangle corners is also left out. `Layout.ResponsiveLayoutTiles` shows no rectangle needs it for a non-negative size.
- The ticker goroutine and the concurrency between it and the event loop are outside the model (cmd/fpm-monitor/main.go:30-47). The model is one sequential step function.
- Float formatting of the throughput label (`%.1f req/s`) and the latency text (`%.2f ms`) is left out. Those labels hold the number before it is rounded to one or two decimals for display.
- Monitor.GetAvgRequestDuration: the source divides in float64 (`float64(totalDuration) / float64(activeCount) / 1000.0`). The model divides exact reals, so it does not reproduce float64 rounding.
- The slow-requests paragraph and the latency paragraph have no contract of their own beyond `Builder.UpdateWidgets`. They are `Builder.UpdateSlowRequests` and `Builder.UpdateAvgDuration`.
- Builder.PoolLoadPercent: computes the exact truncated quotient `active*100/total`. The source computes `int(float64(active)/float64(total)*100)`, whose rounding can come out one lower (29 of 100 gives 28). IEEE-754 arithmetic is not modelled.
- Monitor.CalculateRPS: the source returns a float64 of an int difference. The model keeps the int, which is exact while the difference stays below 2^53.
- Monitor.SumRunning: Go's 64-bit `int` can wrap when summing durations. The model uses unbounded integers.
- Builder.UpdateProcessChart: series values are float64 in the source and integers here. The two agree below 2^53.
- The strings in internal/ui/locale.go are copied as data. The only property proved about them is the key set and that the two locales differ.

=== FILE: app.dfy ===
/**
 The program's start-up and its once-a-second update (cmd/fpm-monitor/main.go) as a
 pure step function. The fetch of the status page is an input to each tick; the ticker,
 the goroutine, rendering and the keyboard loop are not modelled.
 */
module App {
  import opened Monitor
  import opened LocaleTable
  import opened Builder
  import opened Layout

  /** Command-line options and their defaults (the `-lang` and `-url` flags). */
  datatype Config = Config(lang: string, statusUrl: string)

  const DefaultLang: string := "en"
  const DefaultStatusUrl: string := "http://localhost/status"

  function DefaultConfig(): Config {
    Config(DefaultLang, DefaultStatusUrl)
  }

  /** What one fetch of the status page produced: a decoded status, or an error. */
  datatype FetchResult = Fetched(status: FPMStatus) | FetchFailed(cause: string)

  datatype State = State(monitor: MonitorState, builder: WidgetBuilder, widgets: Widgets)

  /**
   Before the first tick: an empty monitor for the configured URL, the builder for the
   configured language, and the widgets in the fixed layout showing placeholders.
   Filling in the placeholders again would change nothing.
   */
  function Start(cfg: Config): (st: State)
    ensures Valid(st.monitor) && st.monitor.history == [] && st.monitor.statusUrl == cfg.statusUrl
    ensures st.builder == NewWidgetBuilder(cfg.lang)
    ensures Rects(st.widgets) == Grid(120, 28, 60, 30, 60, 8, 15, 25)
    ensures Tiles(Rects(st.widgets), 120, 28)
    ensures InitializeEmptyData(st.builder, st.widgets) == st.widgets
    ensures var loc := st.builder.locale;
            && st.widgets.processChart.title == loc.processesTitle
            && st.widgets.poolGauge.title == loc.poolLoadTitle && st.widgets.rpsGauge.title == loc.rpsTitle
            && st.widgets.avgDuration.title == loc.avgDurationTitle
            && st.widgets.slowRequests.title == loc.slowRequestsTitle
            && st.widgets.infoTable.title == "Pool Info" && st.widgets.help.text == Text(loc.exit)
  {
    var b := NewWidgetBuilder(cfg.lang);
    State(NewMonitor(cfg.statusUrl), b, InitializeEmptyData(b, SetLayout(CreateWidgets(b))))
  }

  /** With the default options the dashboard polls localhost in English. */
  lemma DefaultStart()
    ensures Start(DefaultConfig()).monitor.statusUrl == "http://localhost/status"
    ensures Start(DefaultConfig()).builder.locale == English
  {
  }

  /**
   One tick. A failed fetch is skipped and leaves the whole state as it was. A successful
   one appends the status once and refreshes the widgets from the updated monitor and
   that same status; rectangles never change and the history bound is kept.
   */
  function Tick(st: State, fetch: FetchResult): (r: State)
    ensures fetch.FetchFailed? ==> r == st
    ensures fetch.Fetched? ==> r.monitor == AddToHistory(st.monitor, fetch.status)
    ensures fetch.Fetched? ==> r.widgets == UpdateWidgets(st.builder, st.widgets, r.monitor, fetch.status)
    ensures r.builder == st.builder && Rects(r.widgets) == Rects(st.widgets)
    ensures Valid(st.monitor) ==> Valid(r.monitor)
  {
    match fetch
    case FetchFailed(_) => st
    case Fetched(status) =>
      var m := AddToHistory(st.monitor, status);
      st.(monitor := m, widgets := UpdateWidgets(st.builder, st.widgets, m, status))
  }

  /** Ticks through the fetch results in order. */
  function Run(st: State, fetches: seq<FetchResult>): State
    decreases |fetches|
  {
    if |fetches| == 0 then st else Run(Tick(st, fetches[0]), fetches[1..])
  }

  /** The statuses of the successful fetches, in order. */
  function Successes(fetches: seq<FetchResult>): (ss: seq<FPMStatus>)
    ensures |ss| <= |fetches|
    decreases |fetches|
  {
    if |fetches| == 0 then []
    else (if fetches[0].Fetched? then [fetches[0].status] else []) + Successes(fetches[1..])
  }

  function AsFetched(ss: seq<FPMStatus>): (fs: seq<FetchResult>)
    ensures |fs| == |ss| && forall i | 0 <= i < |ss| :: fs[i] == Fetched(ss[i])
  {
    seq(|ss|, i requires 0 <= i < |ss| => Fetched(ss[i]))
  }

  lemma SkipFailed(st: State, fetches: seq<FetchResult>)
    requires |fetches| > 0 && fetches[0].FetchFailed?
    ensures Run(st, fetches) == Run(st, fetches[1..])
    ensures AsFetched(Successes(fetches)) == AsFetched(Successes(fetches[1..]))
  {
  }

  lemma KeepFetched(st: State, fetches: seq<FetchResult>)
    requires |fetches| > 0 && fetches[0].Fetched?
    ensures Run(st, AsFetched(Successes(fetches)))
         == Run(Tick(st, fetches[0]), AsFetched(Successes(fetches[1..])))
  {
    var all := AsFetched(Successes(fetches));
    var rest := AsFetched(Successes(fetches[1..]));
    assert all == [fetches[0]] + rest;
    assert all[0] == fetches[0] && all[1..] == rest;
  }

  /** Failed ticks are invisible: running with them equals running the successes alone. */
  lemma {:induction false} FailuresAreInvisible(st: State, fetches: seq<FetchResult>)
    ensures Run(st, fetches) == Run(st, AsFetched(Successes(fetches)))
    decreases |fetches|
  {
    if |fetches| > 0 {
      if fetches[0].Fetched? {
        FailuresAreInvisible(Tick(st, fetches[0]), fetches[1..]);
        KeepFetched(st, fetches);
      } else {
        FailuresAreInvisible(st, fetches[1..]);
        SkipFailed(st, fetches);
      }
    }
  }

  /** The monitor after a run has appended exactly the successful statuses, in order. */
  lemma {:induction false} RunMonitor(st: State, fetches: seq<FetchResult>)
    ensures Run(st, fetches).monitor == AddAll(st.monitor, Successes(fetches))
    decreases |fetches|
  {
    if |fetches| > 0 {
      RunMonitor(Tick(st, fetches[0]), fetches[1..]);
      var ss := Successes(fetches);
      if fetches[0].Fetched? {
        assert ss == [fetches[0].status] + Successes(fetches[1..]);
        assert ss[0] == fetches[0].status && ss[1..] == Successes(fetches[1..]);
      } else {
        assert ss == Successes(fetches[1..]);
      }
    }
  }

  /**
   From start-up, the history after any run of ticks is the last 60 successfully fetched
   statuses in the order they were fetched.
   */
  lemma HistoryAfterRun(cfg: Config, fetches: seq<FetchResult>)
    ensures Run(Start(cfg), fetches).monitor.history == Window(Successes(fetches), 60)
  {
    RunMonitor(Start(cfg), fetches);
    FreshHistoryIsWindow(cfg.statusUrl, Successes(fetches));
  }

  /** The throughput gauge after a successful tick reads the delta against the previous sample. */
  lemma TickThroughput(st: State, status: FPMStatus)
    requires Valid(st.monitor) && st.monitor.maxHistory >= 2 && |st.monitor.history| > 0
    ensures Tick(st, Fetched(status)).widgets.rpsGauge.caption
         == Rate(status.acceptedConn - st.monitor.history[|st.monitor.history| - 1].acceptedConn)
  {
    RpsAfterAdd(st.monitor, status);
  }

  function Accepted(n: int): FPMStatus {
    FPMStatus("www", "dynamic", 0, 0, n, 0, 0, 0, 0, 0, 0, 0, 0, 0, [])
  }

  /**
   Three successful ticks accepting 5, 12 and 20 connections in total publish throughputs
   0, 7 and 8, and failed ticks in between change none of it.
   */
  lemma ThroughputTrace(cfg: Config)
    ensures var s1 := Tick(Start(cfg), Fetched(Accepted(5)));
            var s2 := Tick(Tick(s1, FetchFailed("timeout")), Fetched(Accepted(12)));
            var s3 := Tick(Tick(s2, FetchFailed("refused")), Fetched(Accepted(20)));
            && s1.widgets.rpsGauge.caption == Rate(0)
            && s2.widgets.rpsGauge.caption == Rate(7)
            && s3.widgets.rpsGauge.caption == Rate(8)
  {
    var s0 := Start(cfg);
    var s1 := Tick(s0, Fetched(Accepted(5)));
    RpsOfFirstSample(cfg.statusUrl, Accepted(5));
    TickThroughput(s1, Accepted(12));
    var s2 := Tick(s1, Fetched(Accepted(12)));
    TickThroughput(s2, Accepted(20));
  }

  /** Once there are two samples, the chart plots the whole history: active and idle counts, sample by sample. */
  predicate ChartShowsHistory(st: State) {
    var h := st.monitor.history;
    var d := st.widgets.processChart.data;
    |h| > 1 ==>
      && |d| == 2 && |d[0]| == |h| && |d[1]| == |h|
      && forall i | 0 <= i < |h| :: d[0][i] == h[i].activeProcesses && d[1][i] == h[i].idleProcesses
  }

  lemma TickKeepsChart(st: State, fetch: FetchResult)
    requires ChartShowsHistory(st)
    ensures ChartShowsHistory(Tick(st, fetch))
  {
  }

  /** Every state reachable from start-up keeps the chart in step with the history. */
  lemma {:induction false} RunKeepsChart(st: State, fetches: seq<FetchResult>)
    requires ChartShowsHistory(st)
    ensures ChartShowsHistory(Run(st, fetches))
    decreases |fetches|
  {
    if |fetches| > 0 {
      TickKeepsChart(st, fetches[0]);
      RunKeepsChart(Tick(st, fetches[0]), fetches[1..]);
    }
  }

  /**
   After two or more successful fetches the chart's series are the active and idle
   counts of the last 60 successfully fetched statuses.
   */
  lemma ChartFollowsHistory(cfg: Config, fetches: seq<FetchResult>)
    requires |Successes(fetches)| >= 2
    ensures var r := Run(Start(cfg), fetches);
            var h := Window(Successes(fetches), 60);
            && |r.widgets.processChart.data| == 2
            && |r.widgets.processChart.data[0]| == |h|
            && |r.widgets.processChart.data[1]| == |h|
            && forall i | 0 <= i < |h| :: r.widgets.processChart.data[0][i] == h[i].activeProcesses
                                      && r.widgets.processChart.data[1][i] == h[i].idleProcesses
  {
    RunKeepsChart(Start(cfg), fetches);
    HistoryAfterRun(cfg, fetches);
  }
}

=== FILE: builder.dfy ===
/**
 The widget builder of internal/ui/builder.go with the terminal widgets reduced to plain
 records: a rectangle, a title, and the content the builder writes (gauge percent and
 label, paragraph text, chart series, table rows). Drawing, colours and the event loop
 belong to the terminal library and are not modelled.
 */
module Builder {
  import opened Optional
  import opened Decimal
  import opened GoInt
  import opened LocaleTable
  import opened Monitor
  import opened Uptime

  datatype WidgetBuilder = WidgetBuilder(locale: Locale)

  /** Picks the locale of `lang`, falling back to English for a tag the table lacks. */
  function NewWidgetBuilder(lang: string): (b: WidgetBuilder)
    ensures lang in Locales ==> b.locale == Locales[lang]
    ensures lang !in Locales ==> b.locale == Locales["en"]
  {
    if lang in Locales then WidgetBuilder(Locales[lang]) else WidgetBuilder(Locales["en"])
  }

  /** Any tag other than "en" and "ru" gives exactly the English builder. */
  lemma UnknownLanguageIsEnglish(lang: string)
    requires lang != "en" && lang != "ru"
    ensures NewWidgetBuilder(lang) == NewWidgetBuilder("en")
    ensures NewWidgetBuilder(lang).locale == English
  {
    LocaleKeys();
  }

  /** "ru" is recognised: it does not fall back. */
  lemma RussianIsNotEnglish()
    ensures NewWidgetBuilder("ru") != NewWidgetBuilder("en")
  {
    LocaleKeys();
  }

  /** A widget's screen rectangle, `[x0, x1) x [y0, y1)`, as passed to SetRect. */
  datatype Rect = Rect(x0: int, y0: int, x1: int, y1: int)

  /**
   Text shown by a gauge or paragraph. The float renderings `%.1f req/s` and `%.2f ms`
   are kept as the number they format, before rounding to one or two decimals.
   */
  datatype Label = Text(text: string) | Rate(reqPerSec: int) | Millis(ms: real)

  datatype Gauge = Gauge(rect: Rect, title: string, percent: int, caption: Label)
  datatype Paragraph = Paragraph(rect: Rect, title: string, text: Label)
  datatype Plot = Plot(rect: Rect, title: string, data: seq<seq<int>>)
  datatype Row = Row(name: string, value: string)
  datatype Table = Table(rect: Rect, title: string, rows: seq<Row>)

  datatype Widgets = Widgets(
    processChart: Plot,
    poolGauge: Gauge,
    rpsGauge: Gauge,
    avgDuration: Paragraph,
    slowRequests: Paragraph,
    infoTable: Table,
    help: Paragraph)

  const Loading: string := "Loading..."
  const NoRect: Rect := Rect(0, 0, 0, 0)

  /** The seven rectangles in the order the widgets are declared. */
  function Rects(w: Widgets): seq<Rect> {
    [w.processChart.rect, w.poolGauge.rect, w.rpsGauge.rect, w.avgDuration.rect,
     w.slowRequests.rect, w.infoTable.rect, w.help.rect]
  }

  /**
   The widgets as created: the chart, gauges and paragraphs take their titles from the
   locale, the table is titled "Pool Info" whatever the language, the help bar shows the
   locale's exit hint, and nothing else has content or a rectangle yet.
   */
  function CreateWidgets(b: WidgetBuilder): (r: Widgets)
    ensures r.processChart.title == b.locale.processesTitle && r.processChart.data == []
    ensures r.poolGauge.title == b.locale.poolLoadTitle && r.rpsGauge.title == b.locale.rpsTitle
    ensures r.poolGauge.percent == 0 && r.rpsGauge.percent == 0
    ensures r.poolGauge.caption == r.rpsGauge.caption == Text("")
    ensures r.avgDuration.title == b.locale.avgDurationTitle && r.avgDuration.text == Text("")
    ensures r.slowRequests.title == b.locale.slowRequestsTitle && r.slowRequests.text == Text("")
    ensures r.infoTable.title == "Pool Info" && r.infoTable.rows == []
    ensures r.help.title == "" && r.help.text == Text(b.locale.exit)
    ensures forall i | 0 <= i < 7 :: Rects(r)[i] == NoRect
  {
    Widgets(
      Plot(NoRect, b.locale.processesTitle, []),
      Gauge(NoRect, b.locale.poolLoadTitle, 0, Text("")),
      Gauge(NoRect, b.locale.rpsTitle, 0, Text("")),
      Paragraph(NoRect, b.locale.avgDurationTitle, Text("")),
      Paragraph(NoRect, b.locale.slowRequestsTitle, Text("")),
      Table(NoRect, "Pool Info", []),
      Paragraph(NoRect, "", Text(b.locale.exit)))
  }

  /** The row labels of the pool-info table, in display order. */
  function InfoLabels(loc: Locale): seq<string> {
    [loc.totalProcesses, loc.queueLength, loc.maxChildren, loc.uptime, loc.acceptedConnections, "Pool"]
  }

  function Names(rows: seq<Row>): (names: seq<string>)
    ensures |names| == |rows|
    ensures forall i | 0 <= i < |rows| :: names[i] == rows[i].name
  {
    seq(|rows|, i requires 0 <= i < |rows| => rows[i].name)
  }

  /** The widgets apart from their rectangles: what a layout change must leave alone. */
  function Content(w: Widgets): Widgets {
    Widgets(w.processChart.(rect := NoRect), w.poolGauge.(rect := NoRect), w.rpsGauge.(rect := NoRect),
            w.avgDuration.(rect := NoRect), w.slowRequests.(rect := NoRect),
            w.infoTable.(rect := NoRect), w.help.(rect := NoRect))
  }

  /**
   The placeholder state before the first sample: six labelled rows all reading
   "Loading...", both gauges at 0 with a "Loading..." label, both paragraphs "Loading...".
   Rectangles, titles, the chart and the help bar are untouched.
   */
  function InitializeEmptyData(b: WidgetBuilder, w: Widgets): (r: Widgets)
    ensures Names(r.infoTable.rows) == InfoLabels(b.locale)
    ensures forall i | 0 <= i < |r.infoTable.rows| :: r.infoTable.rows[i].value == Loading
    ensures r.poolGauge.percent == 0 && r.poolGauge.caption == Text(Loading)
    ensures r.rpsGauge.percent == 0 && r.rpsGauge.caption == Text(Loading)
    ensures r.avgDuration.text == Text(Loading) && r.slowRequests.text == Text(Loading)
    ensures Rects(r) == Rects(w)
    ensures r.processChart == w.processChart && r.help == w.help
    ensures r.poolGauge.title == w.poolGauge.title && r.rpsGauge.title == w.rpsGauge.title
    ensures r.infoTable.title == w.infoTable.title
    ensures r.avgDuration.title == w.avgDuration.title && r.slowRequests.title == w.slowRequests.title
  {
    var loc := b.locale;
    w.(infoTable := w.infoTable.(rows := [
         Row(loc.totalProcesses, Loading),
         Row(loc.queueLength, Loading),
         Row(loc.maxChildren, Loading),
         Row(loc.uptime, Loading),
         Row(loc.acceptedConnections, Loading),
         Row("Pool", Loading)]),
       poolGauge := w.poolGauge.(percent := 0, caption := Text(Loading)),
       rpsGauge := w.rpsGauge.(percent := 0, caption := Text(Loading)),
       avgDuration := w.avgDuration.(text := Text(Loading)),
       slowRequests := w.slowRequests.(text := Text(Loading)))
  }

  /**
   With at least two samples the chart holds two series as long as the history:
   active processes first, idle processes second, sample by sample. With fewer the
   chart keeps what it had.
   */
  function UpdateProcessChart(p: Plot, m: MonitorState): (r: Plot)
    ensures r.rect == p.rect && r.title == p.title
    ensures |m.history| <= 1 ==> r == p
    ensures |m.history| > 1 ==>
              && |r.data| == 2 && |r.data[0]| == |m.history| && |r.data[1]| == |m.history|
              && (forall i | 0 <= i < |m.history| ::
                    r.data[0][i] == m.history[i].activeProcesses && r.data[1][i] == m.history[i].idleProcesses)
  {
    if |m.history| > 1 then
      var h := m.history;
      p.(data := [seq(|h|, i requires 0 <= i < |h| => h[i].activeProcesses),
                  seq(|h|, i requires 0 <= i < |h| => h[i].idleProcesses)])
    else p
  }

  /**
   Pool load in percent, truncated toward zero. It lies in [0, 100] whenever the active
   count lies in [0, total].
   */
  function PoolLoadPercent(active: int, total: int): (pct: int)
    requires total > 0
    ensures 0 <= active <= total ==> 0 <= pct <= 100
    ensures active >= 0 ==> pct * total <= active * 100 < pct * total + total
  {
    Quot(active * 100, total)
  }

  lemma PoolLoadExample()
    ensures PoolLoadPercent(3, 4) == 75
  {
  }

  function PoolLabel(active: int, total: int, pct: int): string {
    IntToString(active) + "/" + IntToString(total) + " (" + IntToString(pct) + "%)"
  }

  /**
   With a positive total the gauge shows the pool load; with a total of zero or less the
   gauge keeps its previous percent and label rather than showing a misleading 0.
   */
  function UpdatePoolGauge(g: Gauge, status: FPMStatus): (r: Gauge)
    ensures status.totalProcesses <= 0 ==> r == g
    ensures status.totalProcesses > 0 ==>
              && r.percent == PoolLoadPercent(status.activeProcesses, status.totalProcesses)
              && r.caption == Text(PoolLabel(status.activeProcesses, status.totalProcesses, r.percent))
    ensures r.rect == g.rect && r.title == g.title
  {
    if status.totalProcesses > 0 then
      var load := PoolLoadPercent(status.activeProcesses, status.totalProcesses);
      g.(percent := load, caption := Text(PoolLabel(status.activeProcesses, status.totalProcesses, load)))
    else g
  }

  /**
   The throughput gauge: the percent is the throughput capped at 100 (not floored, so a
   negative throughput shows as is); the label carries the uncapped value.
   */
  function UpdateRPSGauge(g: Gauge, m: MonitorState): (r: Gauge)
    ensures r.percent <= 100 && r.percent <= CalculateRPS(m)
    ensures r.percent == 100 || r.percent == CalculateRPS(m)
    ensures r.caption == Rate(CalculateRPS(m))
    ensures r.rect == g.rect && r.title == g.title
  {
    var rps := CalculateRPS(m);
    var value := if rps > 100 then 100 else rps;
    g.(percent := value, caption := Rate(rps))
  }

  function UpdateAvgDuration(p: Paragraph, m: MonitorState): Paragraph {
    p.(text := Millis(GetAvgRequestDuration(m)))
  }

  function UpdateSlowRequests(b: WidgetBuilder, p: Paragraph, status: FPMStatus): Paragraph {
    p.(text := Text(IntToString(status.slowRequests) + " " + b.locale.slowRequestsText))
  }

  /**
   Six rows under the same labels as the placeholder table. The counters read back as
   the status's values, the uptime row is the formatted start-since, and the last row
   names the pool.
   */
  function UpdateInfoTable(b: WidgetBuilder, t: Table, status: FPMStatus): (r: Table)
    ensures Names(r.rows) == InfoLabels(b.locale)
    ensures ParseInt(r.rows[0].value) == Some(status.totalProcesses)
    ensures ParseInt(r.rows[1].value) == Some(status.listenQueueLen)
    ensures ParseInt(r.rows[2].value) == Some(status.maxChildrenReached)
    ensures r.rows[3].value == FormatUptime(status.startSince)
    ensures ParseInt(r.rows[4].value) == Some(status.acceptedConn)
    ensures r.rows[5] == Row("Pool", status.pool)
    ensures r.rect == t.rect && r.title == t.title
  {
    var loc := b.locale;
    IntToStringRoundTrip(status.totalProcesses);
    IntToStringRoundTrip(status.listenQueueLen);
    IntToStringRoundTrip(status.maxChildrenReached);
    IntToStringRoundTrip(status.acceptedConn);
    t.(rows := [
         Row(loc.totalProcesses, IntToString(status.totalProcesses)),
         Row(loc.queueLength, IntToString(status.listenQueueLen)),
         Row(loc.maxChildren, IntToString(status.maxChildrenReached)),
         Row(loc.uptime, FormatUptime(status.startSince)),
         Row(loc.acceptedConnections, IntToString(status.acceptedConn)),
         Row("Pool", status.pool)])
  }

  /**
   Refreshes every widget from the monitor (already holding `status` as its newest
   sample) and from `status`. Rectangles, titles and the help bar never change.
   */
  function UpdateWidgets(b: WidgetBuilder, w: Widgets, m: MonitorState, status: FPMStatus): (r: Widgets)
    ensures Rects(r) == Rects(w) && r.help == w.help
    ensures r.processChart.title == w.processChart.title && r.infoTable.title == w.infoTable.title
    ensures r.poolGauge.title == w.poolGauge.title && r.rpsGauge.title == w.rpsGauge.title
    ensures r.avgDuration.title == w.avgDuration.title && r.slowRequests.title == w.slowRequests.title
  {
    Widgets(
      UpdateProcessChart(w.processChart, m),
      UpdatePoolGauge(w.poolGauge, status),
      UpdateRPSGauge(w.rpsGauge, m),
      UpdateAvgDuration(w.avgDuration, m),
      UpdateSlowRequests(b, w.slowRequests, status),
      UpdateInfoTable(b, w.infoTable, status),
      w.help)
  }

  /** A refresh writes the same six labels, in the same order, as the placeholder table. */
  lemma InfoLabelsStable(b: WidgetBuilder, w: Widgets, m: MonitorState, status: FPMStatus)
    ensures Names(UpdateWidgets(b, w, m, status).infoTable.rows) == Names(InitializeEmptyData(b, w).infoTable.rows)
  {
  }
}

=== FILE: decimal.dfy ===
/**
 Decimal rendering of integers as Go's `fmt.Sprintf("%d", n)` produces it (an optional
 minus sign, then the digits with no leading zero), and the reading it inverts to.
 */
module Decimal {
  import opened Optional

  predicate IsDigit(c: char) {
    '0' <= c <= '9'
  }

  predicate AllDigits(s: string) {
    forall i | 0 <= i < |s| :: IsDigit(s[i])
  }

  function DigitChar(d: nat): (c: char)
    requires d < 10
    ensures IsDigit(c)
  {
    ('0' as int + d) as char
  }

  function DigitValue(c: char): (d: nat)
    requires IsDigit(c)
    ensures d < 10
  {
    c as int - '0' as int
  }

  /** The digits of a natural number, most significant first. */
  function NatToString(n: nat): (s: string)
    ensures |s| > 0 && AllDigits(s)
    ensures |s| > 1 ==> s[0] != '0'
    decreases n
  {
    if n < 10 then [DigitChar(n)] else NatToString(n / 10) + [DigitChar(n % 10)]
  }

  /** Go's `%d` verb. */
  function IntToString(i: int): (s: string)
    ensures |s| > 0
  {
    if i < 0 then "-" + NatToString(-i) else NatToString(i)
  }

  /** Reads a digit string left to right into `acc`, as `acc * 10 + digit` per character. */
  function Accumulate(acc: nat, ds: string): nat
    requires AllDigits(ds)
    decreases |ds|
  {
    if |ds| == 0 then acc else Accumulate(acc * 10 + DigitValue(ds[0]), ds[1..])
  }

  /** The reading of a `%d` rendering: an optional minus sign and at least one digit. */
  function ParseInt(s: string): Option<int> {
    if |s| > 1 && s[0] == '-' && AllDigits(s[1..]) then Some(-(Accumulate(0, s[1..]) as int))
    else if |s| > 0 && AllDigits(s) then Some(Accumulate(0, s))
    else None
  }

  lemma {:induction false} AccumulateSnoc(acc: nat, ds: string, c: char)
    requires AllDigits(ds) && IsDigit(c)
    ensures AllDigits(ds + [c])
    ensures Accumulate(acc, ds + [c]) == Accumulate(acc, ds) * 10 + DigitValue(c)
    decreases |ds|
  {
    if |ds| == 0 {
      assert [c][1..] == [];
    } else {
      assert (ds + [c])[1..] == ds[1..] + [c];
      AccumulateSnoc(acc * 10 + DigitValue(ds[0]), ds[1..], c);
    }
  }

  /** Reading the rendering of `n` gives back `n`. */
  lemma {:induction false} NatToStringValue(n: nat)
    ensures Accumulate(0, NatToString(n)) == n
    decreases n
  {
    if n < 10 {
      assert Accumulate(0, NatToString(n)) == Accumulate(n, []);
    } else {
      NatToStringValue(n / 10);
      AccumulateSnoc(0, NatToString(n / 10), DigitChar(n % 10));
    }
  }

  /** `%d` loses nothing: its output reads back as the same integer. */
  lemma IntToStringRoundTrip(i: int)
    ensures ParseInt(IntToString(i)) == Some(i)
  {
    if i < 0 {
      var s := IntToString(i);
      assert s[1..] == NatToString(-i);
      NatToStringValue(-i);
    } else {
      NatToStringValue(i);
    }
  }
}

=== FILE: goint.dfy ===
/**
 Go's integer division and remainder. Go truncates the quotient toward zero, so the
 remainder takes the sign of the dividend; Dafny's `/` and `%` are Euclidean. The
 monitor divides by positive constants only, so the divisor is required positive.
 */
module GoInt {

  /** Go's `a / b` for a positive divisor: the quotient truncated toward zero. */
  function Quot(a: int, b: int): (q: int)
    requires b > 0
    ensures a >= 0 ==> 0 <= q * b <= a < q * b + b
    ensures a < 0 ==> q * b - b < a <= q * b <= 0
  {
    if a >= 0 then
      DivBounds(a, b);
      a / b
    else
      DivBounds(-a, b);
      var q := (-a) / b;
      assert (-q) * b == -(q * b);
      -q
  }

  lemma DivBounds(a: int, b: int)
    requires a >= 0 && b > 0
    ensures 0 <= (a / b) * b <= a < (a / b) * b + b
  {
    assert a == (a / b) * b + a % b;
    assert a / b >= 0;
  }

  /** Go's `a % b` for a positive divisor: `a - (a / b) * b` with truncating `/`. */
  function Rem(a: int, b: int): (r: int)
    requires b > 0
    ensures a == Quot(a, b) * b + r
    ensures a >= 0 ==> 0 <= r < b
    ensures a < 0 ==> -b < r <= 0
  {
    a - Quot(a, b) * b
  }

  /** On non-negative operands Go and Dafny agree. */
  lemma AgreeOnNatural(a: int, b: int)
    requires a >= 0 && b > 0
    ensures Quot(a, b) == a / b && Rem(a, b) == a % b
  {
  }

  /** Truncation is symmetric: negating the dividend negates quotient and remainder. */
  lemma QuotRemOfNegation(a: int, b: int)
    requires b > 0
    ensures Quot(-a, b) == -Quot(a, b) && Rem(-a, b) == -Rem(a, b)
  {
  }
}

=== FILE: layout.dfy ===
/**
 Screen placement of the seven widgets (internal/ui/builder.go): the fixed 120x28 layout
 used at start-up and the layout recomputed from the terminal size on a resize. Both cut
 the screen into panes that share their edges: no gap, no overlap.
 */
module Layout {
  import opened GoInt
  import opened Builder

  predicate WellFormed(r: Rect) {
    r.x0 <= r.x1 && r.y0 <= r.y1
  }

  predicate Inside(r: Rect, width: int, height: int) {
    0 <= r.x0 && r.x1 <= width && 0 <= r.y0 && r.y1 <= height
  }

  /** The two rectangles share no cell (they may share an edge). */
  predicate Disjoint(a: Rect, b: Rect) {
    a.x1 <= b.x0 || b.x1 <= a.x0 || a.y1 <= b.y0 || b.y1 <= a.y0
  }

  function Area(r: Rect): int {
    (r.x1 - r.x0) * (r.y1 - r.y0)
  }

  function TotalArea(rs: seq<Rect>): int {
    if |rs| == 0 then 0 else Area(rs[0]) + TotalArea(rs[1..])
  }

  /**
   The rectangles partition the `width` x `height` screen: each is well formed and on
   screen, no two overlap, and together they cover every cell.
   */
  predicate Tiles(rs: seq<Rect>, width: int, height: int) {
    && (forall i | 0 <= i < |rs| :: WellFormed(rs[i]) && Inside(rs[i], width, height))
    && (forall i, j | 0 <= i < j < |rs| :: Disjoint(rs[i], rs[j]))
    && TotalArea(rs) == width * height
  }

  /** Replaces the seven rectangles, in widget order, and nothing else. */
  function Place(w: Widgets, rs: seq<Rect>): (r: Widgets)
    requires |rs| == 7
    ensures Rects(r) == rs && Content(r) == Content(w)
  {
    w.(processChart := w.processChart.(rect := rs[0]),
       poolGauge := w.poolGauge.(rect := rs[1]),
       rpsGauge := w.rpsGauge.(rect := rs[2]),
       avgDuration := w.avgDuration.(rect := rs[3]),
       slowRequests := w.slowRequests.(rect := rs[4]),
       infoTable := w.infoTable.(rect := rs[5]),
       help := w.help.(rect := rs[6]))
  }

  const FixedRects: seq<Rect> := [
    Rect(0, 0, 60, 15),
    Rect(60, 0, 120, 8),
    Rect(60, 8, 120, 15),
    Rect(0, 15, 30, 25),
    Rect(30, 15, 60, 25),
    Rect(60, 15, 120, 25),
    Rect(0, 25, 120, 28)]

  /**
   The start-up layout: the resize layout's seven-pane shape cut at columns 60, 30 and 60
   and rows 8, 15 and 25 of a 120 x 28 screen, which it tiles; it touches nothing but
   rectangles.
   */
  function SetLayout(w: Widgets): (r: Widgets)
    ensures Rects(r) == Grid(120, 28, 60, 30, 60, 8, 15, 25)
    ensures Tiles(Rects(r), 120, 28)
    ensures Content(r) == Content(w)
  {
    Place(w, FixedRects)
  }

  /** Go's `width*3/5`, `width/4`, `width/2`, `height*2/5`, `height*3/5`, `height*4/5`. */
  function ResponsiveRects(width: int, height: int): seq<Rect> {
    Grid(width, height, Quot(width * 3, 5), Quot(width, 4), Quot(width, 2),
         Quot(height * 2, 5), Quot(height * 3, 5), Quot(height * 4, 5))
  }

  /**
   The resize layout. Neighbouring panes share edges: the chart's right edge is both
   gauges' left edge, the pool gauge's bottom is the throughput gauge's top, the top row
   ends where the bottom row starts, the three bottom panes abut, and the help bar spans
   the full width below them to the bottom of the screen.
   */
  function SetResponsiveLayout(w: Widgets, width: int, height: int): (r: Widgets)
    ensures Content(r) == Content(w)
    ensures var c := r.processChart.rect; var p := r.poolGauge.rect; var g := r.rpsGauge.rect;
            && c.x0 == 0 && c.x1 == p.x0 == g.x0 && p.x1 == g.x1 == width
            && p.y1 == g.y0 && c.y1 == g.y1 && c.y0 == p.y0 == 0
    ensures var a := r.avgDuration.rect; var s := r.slowRequests.rect; var t := r.infoTable.rect;
            && a.y0 == s.y0 == t.y0 == r.processChart.rect.y1
            && a.y1 == s.y1 == t.y1 == r.help.rect.y0
            && a.x0 == 0 && a.x1 == s.x0 && s.x1 == t.x0 && t.x1 == width
    ensures r.help.rect.x0 == 0 && r.help.rect.x1 == width && r.help.rect.y1 == height
    // The cuts: the chart takes 3/5 of the width and 3/5 of the height, the pool gauge
    // 2/5 of the height, the bottom row runs to 4/5 of the height, and the bottom panes
    // split at 1/4 and 1/2 of the width, each fraction truncated toward zero.
    ensures width >= 0 ==>
              && 5 * r.processChart.rect.x1 <= 3 * width < 5 * r.processChart.rect.x1 + 5
              && 4 * r.avgDuration.rect.x1 <= width < 4 * r.avgDuration.rect.x1 + 4
              && 2 * r.slowRequests.rect.x1 <= width < 2 * r.slowRequests.rect.x1 + 2
    ensures height >= 0 ==>
              && 5 * r.poolGauge.rect.y1 <= 2 * height < 5 * r.poolGauge.rect.y1 + 5
              && 5 * r.processChart.rect.y1 <= 3 * height < 5 * r.processChart.rect.y1 + 5
              && 5 * r.help.rect.y0 <= 4 * height < 5 * r.help.rect.y0 + 5
    ensures width < 0 ==>
              && 5 * r.processChart.rect.x1 - 5 < 3 * width <= 5 * r.processChart.rect.x1
              && 4 * r.avgDuration.rect.x1 - 4 < width <= 4 * r.avgDuration.rect.x1
              && 2 * r.slowRequests.rect.x1 - 2 < width <= 2 * r.slowRequests.rect.x1
    ensures height < 0 ==>
              && 5 * r.poolGauge.rect.y1 - 5 < 2 * height <= 5 * r.poolGauge.rect.y1
              && 5 * r.processChart.rect.y1 - 5 < 3 * height <= 5 * r.processChart.rect.y1
              && 5 * r.help.rect.y0 - 5 < 4 * height <= 5 * r.help.rect.y0
  {
    Place(w, ResponsiveRects(width, height))
  }

  lemma SevenTiles(rs: seq<Rect>, width: int, height: int)
    requires |rs| == 7
    requires forall i | 0 <= i < 7 :: WellFormed(rs[i]) && Inside(rs[i], width, height)
    requires forall i, j | 0 <= i < j < 7 :: Disjoint(rs[i], rs[j])
    requires Area(rs[0]) + Area(rs[1]) + Area(rs[2]) + Area(rs[3]) + Area(rs[4]) + Area(rs[5]) + Area(rs[6])
             == width * height
    ensures Tiles(rs, width, height)
  {
    assert TotalArea(rs[6..]) == Area(rs[6]) + TotalArea(rs[7..]);
    assert TotalArea(rs[5..]) == Area(rs[5]) + TotalArea(rs[6..]);
    assert TotalArea(rs[4..]) == Area(rs[4]) + TotalArea(rs[5..]);
    assert TotalArea(rs[3..]) == Area(rs[3]) + TotalArea(rs[4..]);
    assert TotalArea(rs[2..]) == Area(rs[2]) + TotalArea(rs[3..]);
    assert TotalArea(rs[1..]) == Area(rs[1]) + TotalArea(rs[2..]);
  }

  /** The seven panes of the resize layout, cut at the given columns and rows. */
  function Grid(width: int, height: int, col: int, quarter: int, half: int,
                gaugeSplit: int, top: int, bottom: int): seq<Rect>
  {
    [Rect(0, 0, col, top),
     Rect(col, 0, width, gaugeSplit),
     Rect(col, gaugeSplit, width, top),
     Rect(0, top, quarter, bottom),
     Rect(quarter, top, half, bottom),
     Rect(half, top, width, bottom),
     Rect(0, bottom, width, height)]
  }

  lemma GridTiles(width: int, height: int, col: int, quarter: int, half: int,
                  gaugeSplit: int, top: int, bottom: int)
    requires 0 <= col <= width && 0 <= quarter <= half <= width
    requires 0 <= gaugeSplit <= top <= bottom <= height
    ensures Tiles(Grid(width, height, col, quarter, half, gaugeSplit, top, bottom), width, height)
  {
    var rs := Grid(width, height, col, quarter, half, gaugeSplit, top, bottom);
    AreaSum(width, height, col, quarter, half, gaugeSplit, top, bottom);
    SevenTiles(rs, width, height);
  }

  /**
   For any non-negative terminal size the resize layout tiles the screen exactly; in
   particular every rectangle is well formed.
   */
  lemma ResponsiveLayoutTiles(w: Widgets, width: int, height: int)
    requires width >= 0 && height >= 0
    ensures Tiles(Rects(SetResponsiveLayout(w, width, height)), width, height)
  {
    var col, quarter, half := Quot(width * 3, 5), Quot(width, 4), Quot(width, 2);
    var gaugeSplit, top, bottom := Quot(height * 2, 5), Quot(height * 3, 5), Quot(height * 4, 5);
    assert 0 <= col <= width && 0 <= quarter <= half <= width by {
      AgreeOnNatural(width * 3, 5);
      AgreeOnNatural(width, 4);
      AgreeOnNatural(width, 2);
    }
    assert 0 <= gaugeSplit <= top <= bottom <= height by {
      AgreeOnNatural(height * 2, 5);
      AgreeOnNatural(height * 3, 5);
      AgreeOnNatural(height * 4, 5);
    }
    assert ResponsiveRects(width, height) == Grid(width, height, col, quarter, half, gaugeSplit, top, bottom);
    GridTiles(width, height, col, quarter, half, gaugeSplit, top, bottom);
  }

  lemma AreaSum(w: int, h: int, col: int, quarter: int, half: int, gaugeSplit: int, top: int, bottom: int)
    ensures col * top + (w - col) * gaugeSplit + (w - col) * (top - gaugeSplit)
          + quarter * (bottom - top) + (half - quarter) * (bottom - top) + (w - half) * (bottom - top)
          + w * (h - bottom) == w * h
  {
    calc {
      col * top + (w - col) * gaugeSplit + (w - col) * (top - gaugeSplit)
        + quarter * (bottom - top) + (half - quarter) * (bottom - top) + (w - half) * (bottom - top)
        + w * (h - bottom);
      col * top + (w - col) * top + w * (bottom - top) + w * (h - bottom);
      w * h;
    }
  }
}

=== FILE: locale_table.dfy ===
/**
 The label strings of the dashboard in each supported language
 (internal/ui/locale.go). The table is static data keyed by language tag.
 */
module LocaleTable {

  datatype Locale = Locale(
    processesTitle: string,
    activeProcesses: string,
    idleProcesses: string,
    poolLoadTitle: string,
    rpsTitle: string,
    avgDurationTitle: string,
    slowRequestsTitle: string,
    slowRequestsText: string,
    totalProcesses: string,
    queueLength: string,
    maxChildren: string,
    uptime: string,
    acceptedConnections: string,
    exit: string)

  const English: Locale := Locale(
    "Active/Idle Processes",
    "Active",
    "Idle",
    "Pool Load %",
    "Requests/sec",
    "Avg Request Duration (ms)",
    "Slow Requests",
    "slow requests",
    "Total Processes",
    "Queue Length",
    "Max Children Reached",
    "Uptime",
    "Accepted Connections",
    "Press 'q' or Ctrl+C to quit")

  const Russian: Locale := Locale(
    "Активные/Свободные Процессы",
    "Активные",
    "Свободные",
    "Загрузка Пула %",
    "Запросов/сек",
    "Среднее Время Запроса (мс)",
    "Медленные Запросы",
    "медленных запросов",
    "Всего Процессов",
    "Длина Очереди",
    "Достигнут Макс. Лимит",
    "Время Работы",
    "Принято Соединений",
    "Нажмите 'q' или Ctrl+C для выхода")

  const Locales: map<string, Locale> := map["en" := English, "ru" := Russian]

  lemma LocaleKeys()
    ensures Locales.Keys == {"en", "ru"}
    ensures Locales["en"] != Locales["ru"]
  {
  }
}

=== FILE: monitor.dfy ===
/**
 The status records of one PHP-FPM poll, the monitor's bounded sample history, and the
 metrics derived from it (internal/monitor/monitor.go). The HTTP fetch is not modelled
 here: a fetched status reaches the model as an input of `App.Tick`.
 */
module Monitor {

  /** One worker process as the status page reports it. */
  datatype Process = Process(
    pid: int,
    state: string,
    startTime: int,
    startSince: int,
    requests: int,
    requestDuration: int,   // microseconds
    requestMethod: string,
    requestUri: string,
    contentLength: int,
    user: string,
    script: string,
    lastRequestCpu: real,
    lastRequestMemory: int)

  /** One decoded poll of the pool's status page. */
  datatype FPMStatus = FPMStatus(
    pool: string,
    processManager: string,
    startTime: int,
    startSince: int,
    acceptedConn: int,
    listenQueue: int,
    maxListenQueue: int,
    listenQueueLen: int,
    idleProcesses: int,
    activeProcesses: int,
    totalProcesses: int,
    maxActiveProcesses: int,
    maxChildrenReached: int,
    slowRequests: int,
    processes: seq<Process>)

  datatype MonitorState = MonitorState(statusUrl: string, history: seq<FPMStatus>, maxHistory: int)

  const MaxHistory: int := 60

  /** The history bound: at most `maxHistory` samples, and room for at least one. */
  predicate Valid(m: MonitorState) {
    1 <= m.maxHistory && |m.history| <= m.maxHistory
  }

  function NewMonitor(statusUrl: string): (m: MonitorState)
    ensures Valid(m) && m.history == [] && m.maxHistory == MaxHistory
    ensures m.statusUrl == statusUrl
  {
    MonitorState(statusUrl, [], MaxHistory)
  }

  /**
   Appends one sample and, when that overflows the bound, drops the oldest one. At most
   one sample is evicted, the appended sample is always the newest, and the bound holds
   afterwards whenever it held before.
   */
  function AddToHistory(m: MonitorState, status: FPMStatus): (r: MonitorState)
    ensures r.statusUrl == m.statusUrl && r.maxHistory == m.maxHistory
    ensures r.history == m.history + [status] || r.history == (m.history + [status])[1..]
    ensures Valid(m) ==> Valid(r) && |r.history| > 0 && r.history[|r.history| - 1] == status
    ensures Valid(m) && |m.history| < m.maxHistory ==> r.history == m.history + [status]
    ensures Valid(m) && |m.history| == m.maxHistory ==> r.history == m.history[1..] + [status]
  {
    var h := m.history + [status];
    if |h| > m.maxHistory then m.(history := h[1..]) else m.(history := h)
  }

  /** The last `n` elements of `xs`, or all of them when there are fewer. */
  function Window<T>(xs: seq<T>, n: nat): (w: seq<T>)
    ensures |w| <= n && |w| <= |xs|
  {
    if |xs| <= n then xs else xs[|xs| - n..]
  }

  /** Appends each status in turn, oldest first. */
  function AddAll(m: MonitorState, statuses: seq<FPMStatus>): MonitorState
    decreases |statuses|
  {
    if |statuses| == 0 then m else AddAll(AddToHistory(m, statuses[0]), statuses[1..])
  }

  lemma WindowOfWindow<T>(a: seq<T>, b: seq<T>, n: nat)
    ensures Window(Window(a, n) + b, n) == Window(a + b, n)
  {
  }

  lemma AddOneIsWindow(m: MonitorState, status: FPMStatus)
    requires Valid(m)
    ensures AddToHistory(m, status).history == Window(m.history + [status], m.maxHistory)
  {
  }

  /**
   After any sequence of appends to a valid monitor, the history is exactly the most
   recent `maxHistory` samples in chronological order.
   */
  lemma {:induction false} AddAllIsWindow(m: MonitorState, statuses: seq<FPMStatus>)
    requires Valid(m)
    ensures Valid(AddAll(m, statuses))
    ensures AddAll(m, statuses).history == Window(m.history + statuses, m.maxHistory)
    decreases |statuses|
  {
    if |statuses| == 0 {
      assert m.history + statuses == m.history;
    } else {
      var m' := AddToHistory(m, statuses[0]);
      AddOneIsWindow(m, statuses[0]);
      AddAllIsWindow(m', statuses[1..]);
      WindowOfWindow(m.history + [statuses[0]], statuses[1..], m.maxHistory);
      assert m.history + [statuses[0]] + statuses[1..] == m.history + statuses;
    }
  }

  /** From a new monitor, the history is the last 60 appended samples. */
  lemma FreshHistoryIsWindow(statusUrl: string, statuses: seq<FPMStatus>)
    ensures AddAll(NewMonitor(statusUrl), statuses).history == Window(statuses, 60)
    ensures |AddAll(NewMonitor(statusUrl), statuses).history| == if |statuses| < 60 then |statuses| else 60
  {
    AddAllIsWindow(NewMonitor(statusUrl), statuses);
    assert [] + statuses == statuses;
  }

  /**
   Connections accepted between the two newest samples; 0 with fewer than two samples.
   The difference is not clamped, so a counter reset makes it negative.
   */
  function CalculateRPS(m: MonitorState): (r: int)
    ensures |m.history| < 2 ==> r == 0
    ensures |m.history| >= 2 ==> m.history[|m.history| - 2].acceptedConn + r == m.history[|m.history| - 1].acceptedConn
    ensures r < 0 ==> |m.history| >= 2 && m.history[|m.history| - 1].acceptedConn < m.history[|m.history| - 2].acceptedConn
  {
    if |m.history| < 2 then 0
    else m.history[|m.history| - 1].acceptedConn - m.history[|m.history| - 2].acceptedConn
  }

  /** Appending to a non-empty history yields the delta against the sample before it. */
  lemma RpsAfterAdd(m: MonitorState, status: FPMStatus)
    requires Valid(m) && m.maxHistory >= 2 && |m.history| > 0
    ensures CalculateRPS(AddToHistory(m, status))
         == status.acceptedConn - m.history[|m.history| - 1].acceptedConn
  {
    var h := AddToHistory(m, status).history;
    if |m.history| == m.maxHistory {
      assert h[|h| - 2] == m.history[|m.history| - 1];
    }
  }

  /** The first sample of a monitor has no predecessor, so it reports 0. */
  lemma RpsOfFirstSample(statusUrl: string, status: FPMStatus)
    ensures CalculateRPS(AddToHistory(NewMonitor(statusUrl), status)) == 0
  {
  }

  /** Whether a process enters the latency average: exactly "Running", with a positive duration. */
  predicate Qualifies(p: Process) {
    p.state == "Running" && p.requestDuration > 0
  }

  /** The qualifying processes, in order. */
  function Qualifying(ps: seq<Process>): (qs: seq<Process>)
    ensures |qs| <= |ps|
    ensures forall i | 0 <= i < |qs| :: Qualifies(qs[i])
    decreases |ps|
  {
    if |ps| == 0 then []
    else Qualifying(ps[..|ps| - 1]) + (if Qualifies(ps[|ps| - 1]) then [ps[|ps| - 1]] else [])
  }

  function TotalDuration(ps: seq<Process>): int
    decreases |ps|
  {
    if |ps| == 0 then 0 else TotalDuration(ps[..|ps| - 1]) + ps[|ps| - 1].requestDuration
  }

  lemma TotalSnoc(ps: seq<Process>, p: Process)
    ensures TotalDuration(ps + [p]) == TotalDuration(ps) + p.requestDuration
  {
    assert (ps + [p])[..|ps|] == ps;
  }

  /** One more process of the prefix adds its duration and one to the count exactly when it qualifies. */
  lemma PrefixStep(ps: seq<Process>, i: int)
    requires 0 <= i < |ps|
    ensures Qualifies(ps[i]) ==>
              && TotalDuration(Qualifying(ps[..i + 1])) == TotalDuration(Qualifying(ps[..i])) + ps[i].requestDuration
              && |Qualifying(ps[..i + 1])| == |Qualifying(ps[..i])| + 1
    ensures !Qualifies(ps[i]) ==> Qualifying(ps[..i + 1]) == Qualifying(ps[..i])
  {
    assert ps[..i + 1][..i] == ps[..i];
    assert Qualifying(ps[..i + 1])
        == Qualifying(ps[..i]) + (if Qualifies(ps[i]) then [ps[i]] else []);
    TotalSnoc(Qualifying(ps[..i]), ps[i]);
    assert Qualifying(ps[..i]) + [] == Qualifying(ps[..i]);
  }

  /**
   The loop of GetAvgRequestDuration: sums the durations of the qualifying processes
   and counts them.
   */
  method SumRunning(ps: seq<Process>) returns (total: int, count: int)
    ensures total == TotalDuration(Qualifying(ps))
    ensures count == |Qualifying(ps)|
  {
    total, count := 0, 0;
    var i := 0;
    while i < |ps|
      invariant 0 <= i <= |ps|
      invariant total == TotalDuration(Qualifying(ps[..i]))
      invariant count == |Qualifying(ps[..i])|
    {
      PrefixStep(ps, i);
      if ps[i].state == "Running" && ps[i].requestDuration > 0 {
        total := total + ps[i].requestDuration;
        count := count + 1;
      }
      i := i + 1;
    }
    assert ps[..|ps|] == ps;
  }

  /** Mean request duration in milliseconds over the qualifying processes, 0 when there are none. */
  function AvgOf(ps: seq<Process>): real {
    var qs := Qualifying(ps);
    if |qs| > 0 then TotalDuration(qs) as real / |qs| as real / 1000.0 else 0.0
  }

  /**
   Average latency of the newest sample only; 0 on an empty history. It is never
   negative, and it is positive exactly when the newest sample has a qualifying process.
   */
  function GetAvgRequestDuration(m: MonitorState): (r: real)
    ensures r >= 0.0
    ensures r > 0.0 <==> |m.history| > 0 && HasQualifying(m.history[|m.history| - 1].processes)
  {
    if |m.history| == 0 then 0.0
    else
      var ps := m.history[|m.history| - 1].processes;
      AvgSign(ps);
      AvgOf(ps)
  }

  lemma {:induction false} TotalAtLeastCount(qs: seq<Process>)
    requires forall i | 0 <= i < |qs| :: qs[i].requestDuration > 0
    ensures TotalDuration(qs) >= |qs|
    decreases |qs|
  {
    if |qs| > 0 {
      TotalAtLeastCount(qs[..|qs| - 1]);
    }
  }

  /** The average is never negative, and positive exactly when some process qualifies. */
  lemma AvgSign(ps: seq<Process>)
    ensures AvgOf(ps) >= 0.0
    ensures AvgOf(ps) > 0.0 <==> HasQualifying(ps)
  {
    var qs := Qualifying(ps);
    QualifyingNonEmpty(ps);
    if |qs| > 0 {
      TotalAtLeastCount(qs);
      var a := TotalDuration(qs) as real / |qs| as real;
      assert a > 0.0;
    }
  }

  lemma {:induction false} TotalBounds(qs: seq<Process>, lo: int, hi: int)
    requires forall i | 0 <= i < |qs| :: lo <= qs[i].requestDuration <= hi
    ensures |qs| * lo <= TotalDuration(qs) <= |qs| * hi
    decreases |qs|
  {
    if |qs| > 0 {
      TotalBounds(qs[..|qs| - 1], lo, hi);
    }
  }

  predicate HasQualifying(ps: seq<Process>) {
    exists i | 0 <= i < |ps| :: Qualifies(ps[i])
  }

  lemma {:induction false} QualifyingNonEmpty(ps: seq<Process>)
    ensures |Qualifying(ps)| > 0 <==> HasQualifying(ps)
    decreases |ps|
  {
    if |ps| > 0 {
      var init := ps[..|ps| - 1];
      QualifyingNonEmpty(init);
      if HasQualifying(init) {
        var i :| 0 <= i < |init| && Qualifies(init[i]);
        assert Qualifies(ps[i]);
      }
      if HasQualifying(ps) && !Qualifies(ps[|ps| - 1]) {
        var i :| 0 <= i < |ps| && Qualifies(ps[i]);
        assert i < |init| && Qualifies(init[i]);
      }
    }
  }

  lemma {:induction false} QualifyingWithin(ps: seq<Process>, lo: int, hi: int)
    requires forall i | 0 <= i < |ps| && Qualifies(ps[i]) :: lo <= ps[i].requestDuration <= hi
    ensures forall j | 0 <= j < |Qualifying(ps)| :: lo <= Qualifying(ps)[j].requestDuration <= hi
    decreases |ps|
  {
    if |ps| > 0 {
      var init := ps[..|ps| - 1];
      assert forall i | 0 <= i < |init| && Qualifies(init[i]) :: lo <= init[i].requestDuration <= hi by {
        forall i | 0 <= i < |init| && Qualifies(init[i]) ensures lo <= init[i].requestDuration <= hi {
          assert init[i] == ps[i];
        }
      }
      QualifyingWithin(init, lo, hi);
    }
  }

  lemma MeanBounds(t: real, n: real, lo: real, hi: real)
    requires n > 0.0 && n * lo <= t <= n * hi
    ensures lo <= t / n <= hi
  {
    assert t / n * n == t;
  }

  /** Integer bounds on a sum carry over to its mean, in milliseconds. */
  lemma MillisMeanBounds(total: int, count: int, lo: int, hi: int)
    requires count > 0 && count * lo <= total <= count * hi
    ensures lo as real <= total as real / count as real / 1000.0 * 1000.0 <= hi as real
  {
    var n := count as real;
    var t := total as real;
    assert n * (lo as real) == (count * lo) as real;
    assert n * (hi as real) == (count * hi) as real;
    MeanBounds(t, n, lo as real, hi as real);
    var a := t / n;
    assert a / 1000.0 * 1000.0 == a;
  }

  /**
   The average is positive exactly when some process qualifies, 0 otherwise, and it lies
   between the smallest and the largest qualifying duration (in milliseconds).
   */
  lemma AvgBounds(ps: seq<Process>, lo: int, hi: int)
    requires forall i | 0 <= i < |ps| && Qualifies(ps[i]) :: lo <= ps[i].requestDuration <= hi
    ensures AvgOf(ps) >= 0.0
    ensures AvgOf(ps) > 0.0 <==> HasQualifying(ps)
    ensures HasQualifying(ps) ==> lo as real <= AvgOf(ps) * 1000.0 <= hi as real
  {
    var qs := Qualifying(ps);
    QualifyingNonEmpty(ps);
    if |qs| > 0 {
      QualifyingWithin(ps, lo, hi);
      TotalBounds(qs, lo, hi);
      TotalBounds(qs, 1, hi);
      MillisMeanBounds(TotalDuration(qs), |qs|, lo, hi);
      MillisMeanBounds(TotalDuration(qs), |qs|, 1, hi);
    }
  }

  /** The latency average reads the sample just appended and nothing older. */
  lemma AvgAfterAdd(m: MonitorState, status: FPMStatus)
    requires Valid(m)
    ensures GetAvgRequestDuration(AddToHistory(m, status)) == AvgOf(status.processes)
  {
  }

  function ProcessIn(state: string, requestDuration: int): Process {
    Process(0, state, 0, 0, 0, requestDuration, "", "", 0, "", "", 0.0, 0)
  }

  /** Two running requests of 2 and 4 ms and an idle worker average to 3 ms. */
  lemma AvgExample()
    ensures AvgOf([ProcessIn("Running", 2000), ProcessIn("Running", 4000), ProcessIn("Idle", 0)]) == 3.0
  {
    var ps := [ProcessIn("Running", 2000), ProcessIn("Running", 4000), ProcessIn("Idle", 0)];
    assert ps[..2] == [ps[0], ps[1]] && ps[..2][..1] == [ps[0]];
    assert Qualifying(ps) == [ps[0], ps[1]];
    assert [ps[0], ps[1]][..1] == [ps[0]];
    assert TotalDuration([ps[0]]) == 2000 by {
      assert [ps[0]][..0] == [];
    }
    assert TotalDuration([ps[0], ps[1]]) == 6000;
  }
}

=== FILE: optional.dfy ===
/** A minimal Some/None datatype used for partial parses and lookups. */
module Optional {

  datatype Option<+T> = None | Some(value: T)
}

=== FILE: uptime.dfy ===
/**
 The uptime formatter of internal/monitor/monitor.go: whole seconds split into days,
 hours, minutes and seconds with Go's truncating arithmetic, printed from the largest
 non-zero unit down to seconds ("1d 1h 1m 1s", "1m 0s", "0s"). `ParseUptime` is an
 independent reading of that text, used to state that the format loses nothing.
 */
module Uptime {
  import opened Optional
  import opened GoInt
  import opened Decimal

  datatype Parts = Parts(days: int, hours: int, minutes: int, secs: int)

  function Seconds(u: Parts): int {
    u.days * 86400 + u.hours * 3600 + u.minutes * 60 + u.secs
  }

  /** Go's split of an uptime into days, hours, minutes and seconds, with truncating `/` and `%`. */
  function Decompose(seconds: int): Parts {
    Parts(Quot(seconds, 86400), Quot(Rem(seconds, 86400), 3600), Quot(Rem(seconds, 3600), 60), Rem(seconds, 60))
  }

  /**
   The components add back up to the input; for a non-negative input each is in range,
   and for a negative one each is non-positive, as truncating division makes them.
   */
  lemma DecomposeSpec(seconds: int)
    ensures var u := Decompose(seconds);
            && Seconds(u) == seconds
            && (seconds >= 0 ==> 0 <= u.days && 0 <= u.hours < 24 && 0 <= u.minutes < 60 && 0 <= u.secs < 60)
            && (seconds < 0 ==> u.days <= 0 && -24 < u.hours <= 0 && -60 < u.minutes <= 0 && -60 < u.secs <= 0)
  {
    if seconds >= 0 {
      DecomposeSum(seconds);
    } else {
      DecomposeSum(-seconds);
      QuotRemOfNegation(-seconds, 86400);
      QuotRemOfNegation(Rem(-seconds, 86400), 3600);
      QuotRemOfNegation(-seconds, 3600);
      QuotRemOfNegation(Rem(-seconds, 3600), 60);
      QuotRemOfNegation(-seconds, 60);
    }
  }

  lemma DecomposeSum(s: int)
    requires s >= 0
    ensures var u := Parts(Quot(s, 86400), Quot(Rem(s, 86400), 3600), Quot(Rem(s, 3600), 60), Rem(s, 60));
            Seconds(u) == s && 0 <= u.days && 0 <= u.hours < 24 && 0 <= u.minutes < 60 && 0 <= u.secs < 60
  {
    AgreeOnNatural(s, 86400);
    AgreeOnNatural(s % 86400, 3600);
    AgreeOnNatural(s, 3600);
    AgreeOnNatural(s % 3600, 60);
    AgreeOnNatural(s, 60);
    ModOfMod(s, 24, 3600);
    ModOfMod(s, 60, 60);
    var d, h, m := s / 86400, (s % 86400) / 3600, (s % 3600) / 60;
    assert s == d * 86400 + s % 86400;
    assert s % 86400 == h * 3600 + s % 3600;
    assert s % 3600 == m * 60 + s % 60;
  }

  /** Reducing modulo a multiple first does not change a remainder. */
  lemma ModOfMod(s: int, k: int, b: int)
    requires s >= 0 && k > 0 && b > 0
    ensures (s % (k * b)) % b == s % b
  {
    var q, r := s / (k * b), s % (k * b);
    assert s == q * (k * b) + r;
    assert s == (q * k) * b + r;
    var q2, r2 := r / b, r % b;
    assert r == q2 * b + r2;
    assert s == (q * k + q2) * b + r2;
    DivModUnique(s, b, q * k + q2, r2);
  }

  lemma DivModUnique(a: int, b: int, q: int, r: int)
    requires b > 0 && a == q * b + r && 0 <= r < b
    ensures a % b == r
  {
    var q', r' := a / b, a % b;
    assert a == q' * b + r';
    var x := q - q';
    assert x * b == r' - r by {
      assert q * b - q' * b == (q - q') * b;
    }
    MulSign(x, b);
  }

  lemma MulSign(x: int, b: int)
    requires b > 0
    ensures x >= 1 ==> x * b >= b
    ensures x <= -1 ==> x * b <= -b
  {
    if x >= 1 {
      NonNegProduct(x - 1, b);
      assert x * b == (x - 1) * b + b;
    }
    if x <= -1 {
      NonNegProduct(-x - 1, b);
      assert x * b == -((-x - 1) * b + b);
    }
  }

  lemma NonNegProduct(x: int, y: int)
    requires x >= 0 && y >= 0
    ensures x * y >= 0
  {
  }

  function Token(v: int, unit: char): string {
    IntToString(v) + [unit]
  }

  /** The text for a split: every unit from the largest non-zero one down to seconds. */
  function Render(u: Parts): string {
    if u.days > 0 then
      Token(u.days, 'd') + " " + Token(u.hours, 'h') + " " + Token(u.minutes, 'm') + " " + Token(u.secs, 's')
    else if u.hours > 0 then
      Token(u.hours, 'h') + " " + Token(u.minutes, 'm') + " " + Token(u.secs, 's')
    else if u.minutes > 0 then
      Token(u.minutes, 'm') + " " + Token(u.secs, 's')
    else
      Token(u.secs, 's')
  }

  /**
   Go's FormatUptime. Whatever the truncating arithmetic computes, the text is that of
   the one split of the uptime into days, hours below 24, minutes below 60 and seconds
   below 60.
   */
  function FormatUptime(seconds: int): (r: string)
    ensures forall u: Parts {:trigger Seconds(u)} | InRange(u) && Seconds(u) == seconds :: r == Render(u)
  {
    SplitIsDecompose(seconds);
    Render(Decompose(seconds))
  }

  /** Seconds per unit letter, 0 for a character that is not a unit. */
  function UnitSeconds(c: char): nat {
    if c == 'd' then 86400 else if c == 'h' then 3600 else if c == 'm' then 60 else if c == 's' then 1 else 0
  }

  /**
   Reads space-separated tokens `<digits><unit>` and sums their values in seconds;
   `acc` holds the digits read so far of the current token.
   */
  function Scan(s: string, acc: nat, total: nat): Option<nat>
    decreases |s|
  {
    if |s| == 0 then Some(total)
    else if IsDigit(s[0]) then Scan(s[1..], acc * 10 + DigitValue(s[0]), total)
    else if UnitSeconds(s[0]) > 0 then
      if |s| == 1 then Some(total + acc * UnitSeconds(s[0]))
      else if s[1] == ' ' then Scan(s[2..], 0, total + acc * UnitSeconds(s[0]))
      else None
    else None
  }

  function ParseUptime(s: string): Option<nat> {
    Scan(s, 0, 0)
  }

  lemma {:induction false} ScanDigits(ds: string, t: string, acc: nat, total: nat)
    requires AllDigits(ds)
    ensures Scan(ds + t, acc, total) == Scan(t, Accumulate(acc, ds), total)
    decreases |ds|
  {
    if |ds| > 0 {
      assert (ds + t)[0] == ds[0];
      assert (ds + t)[1..] == ds[1..] + t;
      ScanDigits(ds[1..], t, acc * 10 + DigitValue(ds[0]), total);
    } else {
      assert ds + t == t;
    }
  }

  lemma ScanLastToken(v: nat, unit: char, total: nat)
    requires UnitSeconds(unit) > 0
    ensures Scan(NatToString(v) + [unit], 0, total) == Some(total + v * UnitSeconds(unit))
  {
    ScanDigits(NatToString(v), [unit], 0, total);
    NatToStringValue(v);
  }

  lemma ScanToken(v: nat, unit: char, rest: string, total: nat)
    requires UnitSeconds(unit) > 0
    ensures Scan(NatToString(v) + [unit] + " " + rest, 0, total) == Scan(rest, 0, total + v * UnitSeconds(unit))
  {
    var t := [unit] + " " + rest;
    assert NatToString(v) + [unit] + " " + rest == NatToString(v) + t;
    ScanDigits(NatToString(v), t, 0, total);
    NatToStringValue(v);
    assert t[2..] == rest;
  }

  lemma ScanOne(secs: nat, total: nat)
    ensures Scan(Token(secs, 's'), 0, total) == Some(total + secs)
  {
    ScanLastToken(secs, 's', total);
  }

  lemma ScanTwo(minutes: nat, secs: nat, total: nat)
    ensures Scan(Token(minutes, 'm') + " " + Token(secs, 's'), 0, total) == Some(total + minutes * 60 + secs)
  {
    ScanToken(minutes, 'm', Token(secs, 's'), total);
    ScanOne(secs, total + minutes * 60);
  }

  lemma ScanThree(hours: nat, minutes: nat, secs: nat, total: nat)
    ensures Scan(Token(hours, 'h') + " " + Token(minutes, 'm') + " " + Token(secs, 's'), 0, total)
         == Some(total + hours * 3600 + minutes * 60 + secs)
  {
    var tail := Token(minutes, 'm') + " " + Token(secs, 's');
    assert Token(hours, 'h') + " " + Token(minutes, 'm') + " " + Token(secs, 's')
        == NatToString(hours) + ['h'] + " " + tail;
    ScanToken(hours, 'h', tail, total);
    ScanTwo(minutes, secs, total + hours * 3600);
  }

  lemma ScanFour(days: nat, hours: nat, minutes: nat, secs: nat)
    ensures Scan(Token(days, 'd') + " " + Token(hours, 'h') + " " + Token(minutes, 'm') + " " + Token(secs, 's'), 0, 0)
         == Some(days * 86400 + hours * 3600 + minutes * 60 + secs)
  {
    var tail := Token(hours, 'h') + " " + Token(minutes, 'm') + " " + Token(secs, 's');
    assert Token(days, 'd') + " " + Token(hours, 'h') + " " + Token(minutes, 'm') + " " + Token(secs, 's')
        == NatToString(days) + ['d'] + " " + tail;
    ScanToken(days, 'd', tail, 0);
    ScanThree(hours, minutes, secs, days * 86400);
  }

  /** A split with no negative component renders to text that reads back as its total. */
  lemma RenderReadsBack(u: Parts)
    ensures u.days >= 0 && u.hours >= 0 && u.minutes >= 0 && u.secs >= 0 ==>
              ParseUptime(Render(u)) == Some(Seconds(u))
  {
    if u.days >= 0 && u.hours >= 0 && u.minutes >= 0 && u.secs >= 0 {
      var d: nat, h: nat, m: nat, s: nat := u.days, u.hours, u.minutes, u.secs;
      if d > 0 {
        ScanFour(d, h, m, s);
      } else if h > 0 {
        ScanThree(h, m, s, 0);
      } else if m > 0 {
        ScanTwo(m, s, 0);
      } else {
        ScanOne(s, 0);
      }
    }
  }

  /** The uptime text reads back as the number of seconds it was made from. */
  lemma UptimeRoundTrip(seconds: int)
    requires seconds >= 0
    ensures ParseUptime(FormatUptime(seconds)) == Some(seconds)
  {
    DecomposeSpec(seconds);
    RenderReadsBack(Decompose(seconds));
  }

  /** Different non-negative uptimes never print the same. */
  lemma FormatUptimeInjective(a: int, b: int)
    requires a >= 0 && b >= 0 && FormatUptime(a) == FormatUptime(b)
    ensures a == b
  {
    UptimeRoundTrip(a);
    UptimeRoundTrip(b);
  }

  /** The first character after the leading digits: the unit of the first token. */
  function LeadingUnit(s: string): Option<char>
    decreases |s|
  {
    if |s| == 0 then None else if IsDigit(s[0]) then LeadingUnit(s[1..]) else Some(s[0])
  }

  lemma {:induction false} LeadingUnitOfToken(ds: string, unit: char, rest: string)
    requires AllDigits(ds) && !IsDigit(unit)
    ensures LeadingUnit(ds + [unit] + rest) == Some(unit)
    decreases |ds|
  {
    if |ds| > 0 {
      assert (ds + [unit] + rest)[1..] == ds[1..] + [unit] + rest;
      LeadingUnitOfToken(ds[1..], unit, rest);
    } else {
      assert ds + [unit] + rest == [unit] + rest;
    }
  }

  /**
   The text starts with the largest unit the uptime reaches: days from one day on,
   hours from one hour, minutes from one minute, and seconds below that.
   */
  lemma FormatUptimeLeadingUnit(seconds: int)
    requires seconds >= 0
    ensures LeadingUnit(FormatUptime(seconds))
         == Some(if seconds >= 86400 then 'd' else if seconds >= 3600 then 'h' else if seconds >= 60 then 'm' else 's')
  {
    DecomposeSpec(seconds);
    var u := Decompose(seconds);
    var r := FormatUptime(seconds);
    if u.days > 0 {
      LeadingUnitOfToken(NatToString(u.days), 'd', r[|Token(u.days, 'd')|..]);
      assert r == NatToString(u.days) + ['d'] + r[|Token(u.days, 'd')|..];
    } else if u.hours > 0 {
      LeadingUnitOfToken(NatToString(u.hours), 'h', r[|Token(u.hours, 'h')|..]);
      assert r == NatToString(u.hours) + ['h'] + r[|Token(u.hours, 'h')|..];
    } else if u.minutes > 0 {
      LeadingUnitOfToken(NatToString(u.minutes), 'm', r[|Token(u.minutes, 'm')|..]);
      assert r == NatToString(u.minutes) + ['m'] + r[|Token(u.minutes, 'm')|..];
    } else {
      LeadingUnitOfToken(NatToString(u.secs), 's', []);
      assert r == NatToString(u.secs) + ['s'] + [];
    }
  }

  /** A split with hours, minutes and seconds in range and no negative days. */
  predicate InRange(u: Parts) {
    0 <= u.days && 0 <= u.hours < 24 && 0 <= u.minutes < 60 && 0 <= u.secs < 60
  }

  lemma SplitIsDecompose(seconds: int)
    ensures forall u: Parts | InRange(u) && Seconds(u) == seconds :: Decompose(seconds) == u
  {
    forall u: Parts | InRange(u) && Seconds(u) == seconds
      ensures Decompose(seconds) == u
    {
      DecomposeUnique(seconds, u);
    }
  }

  /** The decomposition is the only one with hours, minutes and seconds in range. */
  lemma DecomposeUnique(seconds: int, u: Parts)
    requires Seconds(u) == seconds
    requires 0 <= u.days && 0 <= u.hours < 24 && 0 <= u.minutes < 60 && 0 <= u.secs < 60
    ensures Decompose(seconds) == u
  {
    DecomposeSpec(seconds);
    var v := Decompose(seconds);
    assert v.days == u.days;
    assert v.hours == u.hours;
    assert v.minutes == u.minutes;
  }

  /** Below one minute only the seconds are printed. */
  lemma FormatBelowMinute(seconds: int)
    requires 0 <= seconds < 60
    ensures FormatUptime(seconds) == IntToString(seconds) + "s"
  {
    DecomposeSpec(seconds);
  }

  lemma FormatZero()
    ensures FormatUptime(0) == "0s"
  {
    FormatBelowMinute(0);
    assert IntToString(0) == "0";
  }

  lemma FormatSeconds()
    ensures FormatUptime(59) == "59s"
  {
    FormatBelowMinute(59);
    assert IntToString(59) == "59";
  }

  lemma FormatMinutes()
    ensures FormatUptime(60) == "1m 0s"
  {
  }

  lemma FormatHours()
    ensures FormatUptime(3600) == "1h 0m 0s"
  {
  }

  lemma FormatDays()
    ensures FormatUptime(90061) == "1d 1h 1m 1s"
  {
  }

  lemma FormatWholeHours()
    ensures FormatUptime(90000) == "1d 1h 0m 0s"
  {
  }
}
